=== FILE: README.md ===
# tor2tor core helpers in Dafny

tor2tor crawls one onion-service page over Tor and screenshots the onion links it finds, up to `--limit` of them (10 by default).
Before it captures a link, the capture step normalises the link's scheme with `add_http_to_link`.
It then names the screenshot after the link's network location ("netloc") with `construct_output_name`.
An existing file of that name means the link is skipped, so this name is the crawler's deduplication key.
The capture time is shown through `convert_timestamp` as a UTC 12-hour clock, `hh:mm:ss AM` or `hh:mm:ss PM`.

This project models those three pure helpers of `tor2tor/coreutils.py` as Dafny functions over
strings and natural numbers, and proves what the capture step relies on:

- normalisation is idempotent and only ever prepends `http://`;
- the output name of `scheme://host/path?query#fragment` is `host`, so links on one host share a name,
  whether they are scheme-less or already start with `http://` or `https://`;
- the clock text has a fixed shape and keeps the whole time of day: it parses back to the second.

Modules, one per concern:

- `Strings` (`strings.dfy`): prefixes, infixes and Python's `str.find`.
- `Results` (`results.dfy`): `Result` and `Option`, for the Python calls that raise.
- `Links` (`links.dfy`): `add_http_to_link`.
- `OutputName` (`netloc.dfy`): `construct_output_name`, that is `urllib.parse.urlparse(url).netloc`.
  It follows CPython 3.12's `urlsplit` step by step:
  - strip leading C0 controls and spaces;
  - delete every tab, CR and LF;
  - take off a scheme, which is the text before the first `:` when it is an ASCII letter followed by
    letters, digits, `+`, `-` or `.`;
  - if what is left starts with `//`, the netloc runs up to the earliest `/`, `?` or `#`
    (the `min` over three `find` calls, as `_splitnetloc` does);
  - a netloc with one square bracket but not the other raises `ValueError`, modelled as `Err(InvalidIPv6Url)`.
- `CaptureNaming` (`naming.dfy`): normalisation followed by naming, as the capture step composes them.
- `Clock` (`clock.dfy`): `convert_timestamp`, with `ParseClock` as its inverse.
  On POSIX systems `datetime.utcfromtimestamp` raises past 9999-12-31 23:59:59 UTC (timestamp 253402300799);
  this is modelled as `Err(YearOutOfRange)`.

Two details of the code that the model keeps:

- `construct_output_name` returns the whole netloc, so `host:8080` and `user@host` keep their port and
  user-info in the file name.
- The docstring at `tor2tor/coreutils.py:178` shows `hh:mm:ssAM/PM`. The format string at
  `tor2tor/coreutils.py:181` puts a space before `%p`, and so does the model.

## Model

| member | source | states |
|---|---|---|
| Links.AddHttpToLink | tor2tor/coreutils.py:118-127 | The result always starts with "http://" or "https://". A link that already does is returned unchanged. Any other link comes back seven characters longer, with "http://" in front and the whole link as the rest. |
| Links.AddHttpToLinkIdempotent | tor2tor/coreutils.py:118-127 | Normalising a link twice gives the same result as normalising it once. |
| Links.AddHttpToLinkChangesOnlyBareLinks | tor2tor/coreutils.py:125-127 | A link is left unchanged exactly when it starts with "http://" or "https://". When it does change, the result is "http://" followed by the link. |
| Strings.Find | tor2tor/coreutils.py:157 | Python's `str.find` as urlparse uses it: the result is -1 exactly when the character does not occur at or after the start. Otherwise it is the first index at or after the start that holds the character. |
| OutputName.LStripC0 | tor2tor/coreutils.py:157 | urlparse's `lstrip` of C0 controls and spaces. The result is a suffix of the URL that does not start with such a character. Everything removed in front of it was such a character. |
| OutputName.LStripC0KeepsOtherChars | tor2tor/coreutils.py:157 | The `lstrip` removes only control characters and spaces: every other character occurs as often in the result as in the URL. |
| OutputName.RemoveUnsafe | tor2tor/coreutils.py:157 | urlparse's `replace` calls for tab, CR and LF. The result has none of them and is never longer. Every character in it comes from the input, and a URL without them is unchanged. |
| OutputName.RemoveUnsafeKeepsOtherChars | tor2tor/coreutils.py:157 | The `replace` calls remove only tab, CR and LF: every other character occurs as often in the result as in the input. |
| OutputName.RemoveUnsafeAppend | tor2tor/coreutils.py:157 | Deleting tab, CR and LF works piece by piece: removing them from a + b gives the result for a followed by the result for b. So the kept characters stay in their order. |
| OutputName.Sanitize | tor2tor/coreutils.py:157 | After urlparse's clean-up, the URL has no tab, CR or LF and does not start with a control character or space. A URL that already had that form is unchanged. |
| OutputName.SanitizeKeepsPrintableChars | tor2tor/coreutils.py:157 | The clean-up drops only control characters and spaces: every printable character occurs as often in the result as in the URL. |
| OutputName.AfterScheme | tor2tor/coreutils.py:157 | urlparse's scheme step. What it goes on parsing is a suffix of the URL: the URL itself, or what follows the scheme and its colon. |
| OutputName.NetlocEnd | tor2tor/coreutils.py:157 | The least of the three find results for '/', '?' and '#' is the first netloc delimiter after the "//", or the end of the URL if there is none. |
| OutputName.SplitNetloc | tor2tor/coreutils.py:157 | urlparse's netloc step on what follows the scheme. Without a leading "//" the netloc is empty. Otherwise it is exactly the text after "//" up to the first '/', '?' or '#' or the end. It fails with the invalid-IPv6 error exactly when that text has one square bracket without the other. |
| OutputName.ConstructOutputName | tor2tor/coreutils.py:150-159 | For every URL: the name is empty when no "//" follows the scheme. Otherwise it is exactly the text after the "//" up to the first '/', '?' or '#' or the end. The call fails with the invalid-IPv6 error exactly when that text has one square bracket without the other. The name never contains '/', '?' or '#' and is a contiguous piece of the sanitised URL. |
| OutputName.AfterSchemeOf | tor2tor/coreutils.py:157 | For a valid scheme followed by ':', urlparse takes off exactly the scheme and the colon, whatever follows. |
| OutputName.AfterSchemeRemovesOnlyScheme | tor2tor/coreutils.py:157 | Whatever urlparse takes off the front of a URL is a valid scheme followed by the URL's first colon. |
| OutputName.OutputNameOfUrl | tor2tor/coreutils.py:150-159 | For scheme "://" host tail, where host and tail hold no tab, CR or LF and the tail is empty or starts with '/', '?' or '#', the output name is the host. Path, query and fragment never reach it. If the host has one bracket without the other, the call raises the invalid-IPv6 error. |
| OutputName.OutputNameOfUrlAnyTail | tor2tor/coreutils.py:150-159 | The same for a tail that may hold tab, CR or LF: urlparse deletes them before parsing, and the name is still the host, or the invalid-IPv6 error for a host with one bracket without the other. |
| OutputName.SplitNetlocOf | tor2tor/coreutils.py:157 | After "//", a host with no '/', '?' or '#' followed by a tail that is empty or starts with one of them: the netloc step yields exactly the host, or the invalid-IPv6 error when the host has one bracket without the other. |
| OutputName.NoSlashNoOutputName | tor2tor/coreutils.py:150-159 | A URL with no '/' at all, such as a bare host that was not normalised, has the empty output name. |
| CaptureNaming.OutputNameOfNormalisedLink | tor2tor/coreutils.py:118-159 | Normalising a scheme-less link host+tail and then naming it gives the host. |
| CaptureNaming.OutputNameOfBareHost | tor2tor/coreutils.py:118-159 | Normalising and then naming a bare host gives back the same host. |
| CaptureNaming.SameHostSameOutputName | tor2tor/coreutils.py:118-159 | Two links on one host that differ only in path, query or fragment get the same output name, and so the same screenshot file. |
| CaptureNaming.OutputNameOfHttpLink | tor2tor/coreutils.py:118-159 | A link that already starts with "http://" is left unchanged by normalisation and is named by its host. |
| CaptureNaming.OutputNameOfHttpsLink | tor2tor/coreutils.py:118-159 | A link that already starts with "https://" keeps its scheme through normalisation and is named by its host. |
| Clock.Hour12 | tor2tor/coreutils.py:181 | `%I`: the 12-hour reading of an hour of the day is in 1..12 and equals the hour mod 12, so hours 0 and 12 both read 12. |
| Clock.TwoDigits | tor2tor/coreutils.py:181 | The zero-padded form `%I`, `%M` and `%S` use: two digits that spell n. |
| Clock.Meridiem | tor2tor/coreutils.py:181 | `%p` in the C locale: two characters ending in 'M', starting with 'A' exactly before hour 12 and with 'P' from hour 12 on. |
| Clock.ClockTextFields | tor2tor/coreutils.py:181 | The layout of "%I:%M:%S %p": 11 characters, the 12-hour hour, minute and second at positions 0-1, 3-4 and 6-7 separated by ':', a space at 8, then AM before hour 12 and PM after. |
| Clock.ConvertTimestamp | tor2tor/coreutils.py:173-182 | The call succeeds exactly for timestamps up to the end of year 9999. The text is 11 characters "hh:mm:ss XM", with the hour from 01 to 12 and minutes and seconds from 00 to 59. It reads AM exactly when the time of day is before noon. |
| Clock.ParseConvertTimestamp | tor2tor/coreutils.py:173-182 | Parsing the rendered text gives back the timestamp's time of day, t mod 86400, so the text loses nothing about the time of day. |
| Clock.ConvertParseClock | tor2tor/coreutils.py:173-182 | Every well-formed "hh:mm:ss XM" text is exactly what the seconds it denotes render to. So rendering is a bijection between times of day and clock texts. |
| Clock.ConvertTimestampDaily | tor2tor/coreutils.py:180-181 | The text depends only on the time of day: t and t + 86400 render the same. |
| Clock.MidnightAndNoonReadTwelve | tor2tor/coreutils.py:181 | The hour after midnight reads "12" with AM. The hour after noon reads "12" with PM. This is the %I and %p behaviour. |

## Left out

- The crawl, worker and browser-pool pipeline (opening and closing the Firefox pool, the workers, capture, link extraction, the scraper). It lives in `tor2tor/tor2tor.py`, which is not part of this model. Its substance is thread and Selenium coordination.
- Onion-link validation (`is_valid_onion`): `tor2tor/tor2tor.py` is not part of this model.
- `create_parser`, the module-level `args` and `log`, `set_loglevel` and `create_table`: command-line, logging and table-rendering configuration.
- `check_updates`: an HTTP call to GitHub.
- `path_finder` and `get_file_info`: directory creation, image decoding and file metadata on the filesystem.
- `clear_screen` and `tor_service`: subprocess calls.
- OutputName.ConstructOutputName: does not validate a netloc that holds both square brackets. Python's `_check_bracketed_netloc` checks the IPv6 or IPvFuture literal through the `ipaddress` module, and this model returns such a netloc unchecked.
- OutputName.ConstructOutputName: does not model the NFKC check `_checknetloc` applies to non-ASCII netlocs, because Unicode normalisation is not modelled.
- OutputName.OutputNameOfUrl: shares both gaps above. For a host with both brackets, or a non-ASCII host whose NFKC form holds '/', '?', '#', '@' or ':', it states `Ok(host)` where Python raises `ValueError`. The CaptureNaming lemmas avoid this by admitting only ASCII hosts without brackets.
- OutputName.OutputNameOfUrlAnyTail: shares the same two gaps, for the same hosts.
- Clock.ConvertTimestamp: takes whole non-negative seconds. Fractional seconds and their rounding in `utcfromtimestamp` are left out. So are negative timestamps, whose handling depends on the platform.
- Clock.ConvertTimestamp: the year-9999 limit in `r.Ok? <==> t <= MaxTimestamp` is the one that holds where the C `gmtime` reaches year 9999, as on Linux. On Windows, `gmtime_s` stops at the year 3000 and `utcfromtimestamp` raises earlier; that platform limit is not modelled.
- Clock.ConvertTimestamp: renders `%p` as the C locale's "AM"/"PM". Other locales are not modelled.

=== FILE: clock.dfy ===
/**
 * Capture times: `convert_timestamp` in tor2tor/coreutils.py renders a Unix timestamp as the
 * UTC time of day on a 12-hour clock, `strftime("%I:%M:%S %p")` of `datetime.utcfromtimestamp`.
 * Timestamps are whole non-negative seconds here.
 */
module Clock {
  import opened Results

  const SecondsPerMinute: nat := 60
  const SecondsPerHour: nat := 3600
  const SecondsPerDay: nat := 86400
  /** Noon, in seconds after midnight: the first second rendered "PM". */
  const Noon: nat := 43200
  /** 9999-12-31 23:59:59 UTC, the last second `datetime` can represent (its year ends at 9999). */
  const MaxTimestamp: nat := 253402300799

  /** `utcfromtimestamp` raises for a timestamp past the last representable year. */
  datatype TimeError = YearOutOfRange

  predicate IsDigit(c: char) {
    '0' <= c <= '9'
  }

  function DigitValue(c: char): (d: nat)
    requires IsDigit(c)
  {
    (c - '0') as nat
  }

  function DigitChar(d: nat): (c: char)
    requires d < 10
    ensures IsDigit(c) && DigitValue(c) == d
  {
    ('0' as int + d) as char
  }

  /** A number below 100 written with two digits, zero-padded (`%I`, `%M`, `%S`). */
  function TwoDigits(n: nat): (s: string)
    requires n < 100
    ensures |s| == 2 && IsDigit(s[0]) && IsDigit(s[1])
    ensures DigitValue(s[0]) * 10 + DigitValue(s[1]) == n
  {
    [DigitChar(n / 10), DigitChar(n % 10)]
  }

  /** The number two digits spell. */
  function TwoDigitValue(s: string, i: nat): (n: nat)
    requires i + 2 <= |s| && IsDigit(s[i]) && IsDigit(s[i + 1])
  {
    DigitValue(s[i]) * 10 + DigitValue(s[i + 1])
  }

  /** `%I`: the hour of a 24-hour day on a 12-hour clock, where hour 0 and hour 12 both read 12. */
  function Hour12(hour: nat): (h: nat)
    requires hour < 24
    ensures 1 <= h <= 12
    ensures h % 12 == hour % 12
  {
    if hour % 12 == 0 then 12 else hour % 12
  }

  /** `%p` in the C locale. */
  function Meridiem(hour: nat): (p: string)
    ensures |p| == 2 && p[1] == 'M'
    ensures p[0] == 'A' <==> hour < 12
    ensures p[0] == 'P' <==> hour >= 12
  {
    if hour < 12 then "AM" else "PM"
  }

  /** The shape of "hh:mm:ss XM": hour 01 to 12, minutes and seconds 00 to 59, then AM or PM. */
  predicate IsClockText(s: string) {
    && |s| == 11
    && IsDigit(s[0]) && IsDigit(s[1]) && s[2] == ':'
    && IsDigit(s[3]) && IsDigit(s[4]) && s[5] == ':'
    && IsDigit(s[6]) && IsDigit(s[7]) && s[8] == ' '
    && (s[9] == 'A' || s[9] == 'P') && s[10] == 'M'
    && 1 <= TwoDigitValue(s, 0) <= 12
    && TwoDigitValue(s, 3) < 60
    && TwoDigitValue(s, 6) < 60
  }

  /** The text for a time of day given as hour (0 to 23), minute and second. */
  function ClockText(hour: nat, minute: nat, second: nat): (s: string)
    requires hour < 24 && minute < 60 && second < 60
  {
    TwoDigits(Hour12(hour)) + ":" + TwoDigits(minute) + ":" + TwoDigits(second) + " " + Meridiem(hour)
  }

  /** Where each field sits in a clock text, and what it reads as. */
  lemma ClockTextFields(hour: nat, minute: nat, second: nat)
    requires hour < 24 && minute < 60 && second < 60
    ensures var s := ClockText(hour, minute, second);
            && |s| == 11
            && s[..2] == TwoDigits(Hour12(hour)) && s[2] == ':'
            && s[3..5] == TwoDigits(minute) && s[5] == ':'
            && s[6..8] == TwoDigits(second) && s[8] == ' '
            && s[9..] == Meridiem(hour)
            && IsClockText(s)
            && TwoDigitValue(s, 0) == Hour12(hour)
            && TwoDigitValue(s, 3) == minute
            && TwoDigitValue(s, 6) == second
            && (s[9] == 'A' <==> hour < 12)
  {
    var s := ClockText(hour, minute, second);
    assert s[0] == TwoDigits(Hour12(hour))[0] && s[1] == TwoDigits(Hour12(hour))[1];
    assert s[3] == TwoDigits(minute)[0] && s[4] == TwoDigits(minute)[1];
    assert s[6] == TwoDigits(second)[0] && s[7] == TwoDigits(second)[1];
  }

  /** The hour, minute and second of a time of day (seconds after midnight). */
  lemma {:induction false} TimeOfDayParts(timeOfDay: nat)
    requires timeOfDay < SecondsPerDay
    ensures timeOfDay / SecondsPerHour < 24
    ensures timeOfDay % SecondsPerHour / SecondsPerMinute < 60
    ensures timeOfDay % SecondsPerMinute < 60
    ensures timeOfDay == timeOfDay / SecondsPerHour * SecondsPerHour
                         + timeOfDay % SecondsPerHour / SecondsPerMinute * SecondsPerMinute
                         + timeOfDay % SecondsPerMinute
  {
    var r := timeOfDay % SecondsPerHour;
    assert timeOfDay == timeOfDay / SecondsPerHour * SecondsPerHour + r;
    assert r == r / SecondsPerMinute * SecondsPerMinute + r % SecondsPerMinute;
    assert r % SecondsPerMinute == timeOfDay % SecondsPerMinute;
  }

  /** Hour, minute and second put together split back into themselves. */
  lemma {:induction false} JoinTimeOfDay(hour: nat, minute: nat, second: nat)
    requires hour < 24 && minute < 60 && second < 60
    ensures var timeOfDay := hour * SecondsPerHour + minute * SecondsPerMinute + second;
            && timeOfDay < SecondsPerDay
            && timeOfDay / SecondsPerHour == hour
            && timeOfDay % SecondsPerHour / SecondsPerMinute == minute
            && timeOfDay % SecondsPerMinute == second
  {
    var inHour := minute * SecondsPerMinute + second;
    var timeOfDay := hour * SecondsPerHour + inHour;
    assert inHour < SecondsPerHour;
    assert timeOfDay / SecondsPerHour == hour;
    assert timeOfDay % SecondsPerHour == inHour;
    assert inHour / SecondsPerMinute == minute;
    assert inHour % SecondsPerMinute == second;
    assert timeOfDay == (hour * 60 + minute) * SecondsPerMinute + second;
  }

  /** `convert_timestamp(t)`: the UTC time of day of `t` as "hh:mm:ss AM" or "hh:mm:ss PM". */
  function ConvertTimestamp(t: nat): (r: Result<string, TimeError>)
    ensures r.Ok? <==> t <= MaxTimestamp
    ensures r.Ok? ==> IsClockText(r.value)
    ensures r.Ok? ==> (r.value[9] == 'A' <==> t % SecondsPerDay < Noon)
  {
    if t > MaxTimestamp then Err(YearOutOfRange)
    else
      var timeOfDay := t % SecondsPerDay;
      TimeOfDayParts(timeOfDay);
      var hour := timeOfDay / SecondsPerHour;
      var minute := timeOfDay % SecondsPerHour / SecondsPerMinute;
      var second := timeOfDay % SecondsPerMinute;
      ClockTextFields(hour, minute, second);
      Ok(ClockText(hour, minute, second))
  }

  /** The hour a clock text denotes, 0 to 23: its 12-hour reading and its AM/PM half. */
  function HourOfDay(h12: nat, pm: bool): (hour: nat) {
    h12 % 12 + (if pm then 12 else 0)
  }

  /** Reading an hour 1 to 12 with its half of the day, then writing it out, gives back the reading and half. */
  lemma HourOfDayWritten(h12: nat, pm: bool)
    requires 1 <= h12 <= 12
    ensures HourOfDay(h12, pm) < 24
    ensures Hour12(HourOfDay(h12, pm)) == h12
    ensures Meridiem(HourOfDay(h12, pm)) == if pm then "PM" else "AM"
  {
  }

  /** Reads "hh:mm:ss XM" back as seconds after midnight; None for any other text. */
  function ParseClock(s: string): (r: Option<nat>)
    ensures r.Some? <==> IsClockText(s)
    ensures r.Some? ==> r.value < SecondsPerDay
    ensures r.Some? ==> (r.value < Noon <==> s[9] == 'A')
  {
    if !IsClockText(s) then None
    else
      var hour := HourOfDay(TwoDigitValue(s, 0), s[9] == 'P');
      JoinTimeOfDay(hour, TwoDigitValue(s, 3), TwoDigitValue(s, 6));
      Some(hour * SecondsPerHour + TwoDigitValue(s, 3) * SecondsPerMinute + TwoDigitValue(s, 6))
  }

  /** The 12-hour reading and the AM/PM half give back the 24-hour hour. */
  lemma Hour12WithMeridiem(hour: nat)
    requires hour < 24
    ensures HourOfDay(Hour12(hour), hour >= 12) == hour
  {
  }

  /** Parsing the text of an hour, minute and second gives their seconds after midnight. */
  lemma {:induction false} ParseClockText(hour: nat, minute: nat, second: nat)
    requires hour < 24 && minute < 60 && second < 60
    ensures ParseClock(ClockText(hour, minute, second))
            == Some(hour * SecondsPerHour + minute * SecondsPerMinute + second)
  {
    var s := ClockText(hour, minute, second);
    ClockTextFields(hour, minute, second);
    Hour12WithMeridiem(hour);
    assert HourOfDay(TwoDigitValue(s, 0), s[9] == 'P') == hour;
  }

  /** Reading the rendered text back gives the time of day of the timestamp: no information is lost. */
  lemma {:induction false} ParseConvertTimestamp(t: nat)
    requires t <= MaxTimestamp
    ensures ParseClock(ConvertTimestamp(t).value) == Some(t % SecondsPerDay)
  {
    var timeOfDay := t % SecondsPerDay;
    TimeOfDayParts(timeOfDay);
    var hour := timeOfDay / SecondsPerHour;
    var minute := timeOfDay % SecondsPerHour / SecondsPerMinute;
    var second := timeOfDay % SecondsPerMinute;
    assert ConvertTimestamp(t).value == ClockText(hour, minute, second);
    ParseClockText(hour, minute, second);
  }

  /** Two clock texts with the same hour, minute, second and half of the day are the same text. */
  lemma SameFieldsSameText(r: string, s: string)
    requires |r| == 11 && |s| == 11
    requires r[..2] == s[..2] && r[3..5] == s[3..5] && r[6..8] == s[6..8] && r[9..] == s[9..]
    requires r[2] == s[2] && r[5] == s[5] && r[8] == s[8]
    ensures r == s
  {
    forall i | 0 <= i < 11 ensures r[i] == s[i] {
      if i < 2 { assert r[i] == r[..2][i]; }
      else if 3 <= i < 5 { assert r[i] == r[3..5][i - 3]; }
      else if 6 <= i < 8 { assert r[i] == r[6..8][i - 6]; }
      else if 9 <= i { assert r[i] == r[9..][i - 9]; }
    }
  }

  /** The fields of a clock text, written out again, are that text. */
  lemma {:induction false} ClockTextOfFields(s: string)
    requires IsClockText(s)
    ensures HourOfDay(TwoDigitValue(s, 0), s[9] == 'P') < 24
    ensures ClockText(HourOfDay(TwoDigitValue(s, 0), s[9] == 'P'), TwoDigitValue(s, 3), TwoDigitValue(s, 6)) == s
  {
    var hour := HourOfDay(TwoDigitValue(s, 0), s[9] == 'P');
    HourOfDayWritten(TwoDigitValue(s, 0), s[9] == 'P');
    var r := ClockText(hour, TwoDigitValue(s, 3), TwoDigitValue(s, 6));
    ClockTextFields(hour, TwoDigitValue(s, 3), TwoDigitValue(s, 6));
    TwoDigitsOfValue(s, 0);
    TwoDigitsOfValue(s, 3);
    TwoDigitsOfValue(s, 6);
    assert r[9..] == s[9..] by {
      assert s[9..] == [s[9], s[10]];
    }
    SameFieldsSameText(r, s);
  }

  /** The timestamp of an hour, minute and second on the first day renders as their clock text. */
  lemma {:induction false} ConvertTimeOfDay(t: nat, hour: nat, minute: nat, second: nat)
    requires hour < 24 && minute < 60 && second < 60
    requires t == hour * SecondsPerHour + minute * SecondsPerMinute + second
    ensures ConvertTimestamp(t) == Ok(ClockText(hour, minute, second))
  {
    JoinTimeOfDay(hour, minute, second);
    assert t % SecondsPerDay == t;
    assert t / SecondsPerHour == hour && t % SecondsPerHour / SecondsPerMinute == minute && t % SecondsPerMinute == second;
  }

  /** Every "hh:mm:ss XM" text is what some timestamp renders as: the one its own reading names. */
  lemma {:induction false} ConvertParseClock(s: string)
    requires ParseClock(s).Some?
    ensures ConvertTimestamp(ParseClock(s).value) == Ok(s)
  {
    var hour := HourOfDay(TwoDigitValue(s, 0), s[9] == 'P');
    var minute := TwoDigitValue(s, 3);
    var second := TwoDigitValue(s, 6);
    var t := ParseClock(s).value;
    assert t == hour * SecondsPerHour + minute * SecondsPerMinute + second;
    ConvertTimeOfDay(t, hour, minute, second);
    ClockTextOfFields(s);
  }

  /** Two digits are the zero-padded writing of the number they spell. */
  lemma TwoDigitsOfValue(s: string, i: nat)
    requires i + 2 <= |s| && IsDigit(s[i]) && IsDigit(s[i + 1])
    ensures TwoDigits(TwoDigitValue(s, i)) == s[i..i + 2]
  {
    var n := TwoDigitValue(s, i);
    assert n / 10 == DigitValue(s[i]) && n % 10 == DigitValue(s[i + 1]);
  }

  /** The text depends on the time of day only: a timestamp a day later renders the same. */
  lemma {:induction false} ConvertTimestampDaily(t: nat)
    requires t + SecondsPerDay <= MaxTimestamp
    ensures ConvertTimestamp(t + SecondsPerDay) == ConvertTimestamp(t)
  {
    assert (t + SecondsPerDay) % SecondsPerDay == t % SecondsPerDay;
  }

  /** The hour after midnight reads "12 ... AM" and the hour after noon "12 ... PM". */
  lemma {:induction false} MidnightAndNoonReadTwelve(t: nat)
    requires t <= MaxTimestamp
    ensures t % SecondsPerDay < SecondsPerHour ==>
              ConvertTimestamp(t).value[..2] == "12" && ConvertTimestamp(t).value[9..] == "AM"
    ensures Noon <= t % SecondsPerDay < Noon + SecondsPerHour ==>
              ConvertTimestamp(t).value[..2] == "12" && ConvertTimestamp(t).value[9..] == "PM"
  {
    var timeOfDay := t % SecondsPerDay;
    TimeOfDayParts(timeOfDay);
    var hour := timeOfDay / SecondsPerHour;
    var minute := timeOfDay % SecondsPerHour / SecondsPerMinute;
    var second := timeOfDay % SecondsPerMinute;
    assert ConvertTimestamp(t).value == ClockText(hour, minute, second);
    ClockTextFields(hour, minute, second);
    if timeOfDay < SecondsPerHour {
      assert hour == 0;
      TwelveReadsTwelve(hour);
    } else if Noon <= timeOfDay < Noon + SecondsPerHour {
      assert hour == 12;
      TwelveReadsTwelve(hour);
    }
  }

  /** Hours 0 and 12 are written "12" by `%I`. */
  lemma TwelveReadsTwelve(hour: nat)
    requires hour == 0 || hour == 12
    ensures TwoDigits(Hour12(hour)) == "12"
  {
    assert Hour12(hour) == 12;
  }
}

=== FILE: links.dfy ===
/** Link normalisation: `add_http_to_link` in tor2tor/coreutils.py. */
module Links {
  import opened Strings

  const Http: string := "http://"
  const Https: string := "https://"

  /** The link already names one of the two web schemes the crawler accepts. */
  predicate HasWebScheme(link: string) {
    StartsWith(link, Http) || StartsWith(link, Https)
  }

  /** Prepend "http://" unless the link already starts with "http://" or "https://". */
  function AddHttpToLink(link: string): (r: string)
    ensures HasWebScheme(r)
    ensures HasWebScheme(link) ==> r == link
    ensures !HasWebScheme(link) ==>
              && |r| == |link| + 7
              && StartsWith(r, Http)
              && r[|r| - |link|..] == link
  {
    if HasWebScheme(link) then link else Http + link
  }

  /** Normalising an already normalised link changes nothing. */
  lemma AddHttpToLinkIdempotent(link: string)
    ensures AddHttpToLink(AddHttpToLink(link)) == AddHttpToLink(link)
  {
  }

  /** A link changes exactly when it lacks a web scheme, and then only by the "http://" prefix. */
  lemma AddHttpToLinkChangesOnlyBareLinks(link: string)
    ensures AddHttpToLink(link) == link <==> HasWebScheme(link)
    ensures AddHttpToLink(link) != link ==> AddHttpToLink(link) == Http + link
  {
  }
}

=== FILE: naming.dfy ===
/**
 * How the capture step names a screenshot: it normalises the link with `add_http_to_link` and
 * takes `construct_output_name` of the result, so the stem is the link's host.
 * Links on one host get one name, which is what the existing-file check deduplicates on.
 */
module CaptureNaming {
  import opened Strings
  import opened Results
  import opened Links
  import opened OutputName

  /**
   * A host as found in an onion link: ASCII only (onion addresses are base32), no netloc delimiter,
   * no tab/CR/LF and no square bracket.
   */
  predicate BareHost(h: string) {
    && NoneOf(h, IsNetlocDelimiter) && NoneOf(h, IsUnsafeUrlChar) && '[' !in h && ']' !in h
    && forall i :: 0 <= i < |h| ==> h[i] <= '\U{7F}'
  }

  /** Naming a normalised link whose host is `h` and whose path, query or fragment is `tail` gives `h`. */
  lemma {:induction false} OutputNameOfNormalisedLink(h: string, tail: string)
    requires BareHost(h)
    requires tail == [] || IsNetlocDelimiter(tail[0])
    requires !HasWebScheme(h + tail)
    ensures ConstructOutputName(AddHttpToLink(h + tail)) == Ok(h)
  {
    assert ValidScheme("http");
    assert BracketsBalanced(h);
    assert AddHttpToLink(h + tail) == Http + (h + tail);
    assert Http + (h + tail) == "http" + "://" + h + tail;
    OutputNameOfUrlAnyTail("http", h, tail);
  }

  /** A bare host survives normalisation and naming unchanged. */
  lemma {:induction false} OutputNameOfBareHost(h: string)
    requires BareHost(h)
    ensures ConstructOutputName(AddHttpToLink(h)) == Ok(h)
  {
    assert h + [] == h;
    assert !HasWebScheme(h) by {
      if |h| >= 7 {
        assert h[..7][6] == h[6] != '/';
      }
    }
    OutputNameOfNormalisedLink(h, []);
  }

  /** Two links on the same host, with different paths, queries or fragments, get the same output name. */
  lemma {:induction false} SameHostSameOutputName(h: string, tail1: string, tail2: string)
    requires BareHost(h)
    requires tail1 == [] || IsNetlocDelimiter(tail1[0])
    requires tail2 == [] || IsNetlocDelimiter(tail2[0])
    requires !HasWebScheme(h + tail1) && !HasWebScheme(h + tail2)
    ensures ConstructOutputName(AddHttpToLink(h + tail1)) == ConstructOutputName(AddHttpToLink(h + tail2))
  {
    OutputNameOfNormalisedLink(h, tail1);
    OutputNameOfNormalisedLink(h, tail2);
  }

  /** A link that already carries "https://" keeps it, and is named by its host just the same. */
  lemma {:induction false} OutputNameOfHttpsLink(h: string, tail: string)
    requires BareHost(h)
    requires tail == [] || IsNetlocDelimiter(tail[0])
    ensures ConstructOutputName(AddHttpToLink(Https + h + tail)) == Ok(h)
  {
    assert ValidScheme("https");
    assert StartsWith(Https + h + tail, Https);
    assert Https + h + tail == "https" + "://" + h + tail;
    OutputNameOfUrlAnyTail("https", h, tail);
  }

  /** A link that already carries "http://" is left as it is and named by its host. */
  lemma {:induction false} OutputNameOfHttpLink(h: string, tail: string)
    requires BareHost(h)
    requires tail == [] || IsNetlocDelimiter(tail[0])
    ensures ConstructOutputName(AddHttpToLink(Http + h + tail)) == Ok(h)
  {
    assert ValidScheme("http");
    assert StartsWith(Http + h + tail, Http);
    assert Http + h + tail == "http" + "://" + h + tail;
    OutputNameOfUrlAnyTail("http", h, tail);
  }
}

=== FILE: netloc.dfy ===
/**
 * The output name of a capture: `construct_output_name` in tor2tor/coreutils.py, which returns
 * the network location ("netloc") that Python's `urllib.parse.urlparse` finds in a URL.
 * The netloc is the text after a leading "//" (once any scheme and its colon are removed)
 * up to the first '/', '?' or '#', as in section 3.2 of RFC 3986.
 */
module OutputName {
  import opened Strings
  import opened Results

  /** The ValueError urlsplit raises when a netloc has one square bracket without the other. */
  datatype UrlError = InvalidIPv6Url

  /** urlsplit strips these from the front of a URL: the C0 controls and space, '\x00' to '\x20'. */
  predicate IsC0ControlOrSpace(c: char) {
    c <= ' '
  }

  /** urlsplit deletes every tab, carriage return and line feed from a URL. */
  predicate IsUnsafeUrlChar(c: char) {
    c == '\t' || c == '\r' || c == '\n'
  }

  /** A netloc ends at the first of these. */
  predicate IsNetlocDelimiter(c: char) {
    c == '/' || c == '?' || c == '#'
  }

  predicate IsAsciiLetter(c: char) {
    'a' <= c <= 'z' || 'A' <= c <= 'Z'
  }

  /** urllib's `scheme_chars`: ASCII letters, digits, '+', '-' and '.'. */
  predicate IsSchemeChar(c: char) {
    IsAsciiLetter(c) || '0' <= c <= '9' || c == '+' || c == '-' || c == '.'
  }

  /** Text urlsplit accepts as a scheme: an ASCII letter followed by scheme characters. */
  predicate ValidScheme(s: string) {
    |s| > 0 && IsAsciiLetter(s[0]) && forall i :: 0 <= i < |s| ==> IsSchemeChar(s[i])
  }

  /** A URL that sanitising leaves alone: no leading control or space, no tab, CR or LF. */
  predicate Clean(s: string) {
    (|s| == 0 || !IsC0ControlOrSpace(s[0])) && NoneOf(s, IsUnsafeUrlChar)
  }

  /** The netloc holds both square brackets or neither. */
  predicate BracketsBalanced(s: string) {
    ('[' in s) == (']' in s)
  }

  /** `s.lstrip(C0 controls and space)`: the suffix left after the leading run of such characters. */
  function LStripC0(s: string): (r: string)
    ensures |r| <= |s| && r == s[|s| - |r|..]
    ensures |r| == 0 || !IsC0ControlOrSpace(r[0])
    ensures forall i :: 0 <= i < |s| - |r| ==> IsC0ControlOrSpace(s[i])
  {
    if |s| > 0 && IsC0ControlOrSpace(s[0]) then LStripC0(s[1..]) else s
  }

  /** The `replace(b, "")` calls for tab, CR and LF: `s` with those characters dropped, the rest in order. */
  function RemoveUnsafe(s: string): (r: string)
    ensures |r| <= |s|
    ensures forall i :: 0 <= i < |r| ==> r[i] in s
    ensures NoneOf(r, IsUnsafeUrlChar)
    ensures NoneOf(s, IsUnsafeUrlChar) ==> r == s
    ensures |s| > 0 && !IsUnsafeUrlChar(s[0]) ==> |r| > 0 && r[0] == s[0]
  {
    if |s| == 0 then []
    else if IsUnsafeUrlChar(s[0]) then RemoveUnsafe(s[1..])
    else [s[0]] + RemoveUnsafe(s[1..])
  }

  /** Deleting tab, CR and LF works piece by piece: it keeps every other character, in order. */
  lemma {:induction false} RemoveUnsafeAppend(a: string, b: string)
    ensures RemoveUnsafe(a + b) == RemoveUnsafe(a) + RemoveUnsafe(b)
    decreases |a|
  {
    if |a| > 0 {
      assert (a + b)[1..] == a[1..] + b;
      RemoveUnsafeAppend(a[1..], b);
    } else {
      assert a + b == b;
    }
  }

  /** The clean-up urlsplit applies before it parses anything. */
  function Sanitize(url: string): (r: string)
    ensures Clean(r)
    ensures Clean(url) ==> r == url
  {
    var stripped := LStripC0(url);
    assert Clean(url) ==> stripped == url;
    RemoveUnsafe(stripped)
  }

  /** Stripping the front removes control characters and spaces only: every other character keeps its count. */
  lemma {:induction false} LStripC0KeepsOtherChars(s: string)
    ensures forall c :: !IsC0ControlOrSpace(c) ==> multiset(LStripC0(s))[c] == multiset(s)[c]
    decreases |s|
  {
    if |s| > 0 && IsC0ControlOrSpace(s[0]) {
      assert s == [s[0]] + s[1..];
      LStripC0KeepsOtherChars(s[1..]);
    }
  }

  /** Deleting tab, CR and LF removes those only: every other character keeps its count. */
  lemma {:induction false} RemoveUnsafeKeepsOtherChars(s: string)
    ensures forall c :: !IsUnsafeUrlChar(c) ==> multiset(RemoveUnsafe(s))[c] == multiset(s)[c]
    decreases |s|
  {
    if |s| > 0 {
      assert s == [s[0]] + s[1..];
      RemoveUnsafeKeepsOtherChars(s[1..]);
    }
  }

  /**
   * Sanitising drops control characters and spaces only: every printable character of the URL
   * is still there, as often as before (and, by RemoveUnsafeAppend, in the same order).
   */
  lemma {:induction false} SanitizeKeepsPrintableChars(url: string)
    ensures forall c :: !IsC0ControlOrSpace(c) ==> multiset(Sanitize(url))[c] == multiset(url)[c]
  {
    LStripC0KeepsOtherChars(url);
    RemoveUnsafeKeepsOtherChars(LStripC0(url));
  }

  /** What urlsplit goes on parsing after taking off `scheme ":"`, or the whole URL when it finds no scheme. */
  function AfterScheme(url: string): (rest: string)
    ensures |rest| <= |url| && rest == url[|url| - |rest|..]
  {
    var i := Find(url, ':', 0);
    if i > 0 && ValidScheme(url[..i]) then url[i + 1..] else url
  }

  /** The smaller of the current end and a `find` result, skipping -1 (the `min` step of `_splitnetloc`). */
  function MinFound(delim: nat, found: int): (d: nat) {
    if found >= 0 && found < delim then found else delim
  }

  /**
   * `_splitnetloc(url, start)`'s end of the netloc: the least of the three `find` results for '/', '?'
   * and '#', or the length of the URL. It is the first netloc delimiter at or after `start`.
   */
  function NetlocEnd(url: string, start: nat): (delim: nat)
    requires start <= |url|
    ensures start <= delim <= |url|
    ensures forall j :: start <= j < delim ==> !IsNetlocDelimiter(url[j])
    ensures delim < |url| ==> IsNetlocDelimiter(url[delim])
  {
    var d0 := |url|;
    var d1 := MinFound(d0, Find(url, '/', start));
    var d2 := MinFound(d1, Find(url, '?', start));
    MinFound(d2, Find(url, '#', start))
  }

  /**
   * The netloc step of urlsplit on what follows the scheme: after a leading "//", the text up to the first
   * '/', '?' or '#' (or the end), refused when it holds one square bracket without the other; "" without "//".
   */
  function SplitNetloc(rest: string): (r: Result<string, UrlError>)
    ensures !StartsWith(rest, "//") ==> r == Ok("")
    ensures StartsWith(rest, "//") ==>
              && (r.Ok? ==> && |r.value| + 2 <= |rest|
                            && rest[2..|r.value| + 2] == r.value
                            && (|r.value| + 2 == |rest| || IsNetlocDelimiter(rest[|r.value| + 2])))
              && (r.Err? <==> !BracketsBalanced(rest[2..NetlocEnd(rest, 2)]))
    ensures r.Ok? ==> NoneOf(r.value, IsNetlocDelimiter) && BracketsBalanced(r.value)
  {
    if StartsWith(rest, "//") then
      var end := NetlocEnd(rest, 2);
      var netloc := rest[2..end];
      assert |netloc| + 2 == end;
      if !BracketsBalanced(netloc) then Err(InvalidIPv6Url) else Ok(netloc)
    else
      Ok("")
  }

  /** `construct_output_name(url)`, that is `urlparse(url).netloc`. */
  function ConstructOutputName(url: string): (r: Result<string, UrlError>)
    ensures r.Ok? ==> NoneOf(r.value, IsNetlocDelimiter)
    ensures r.Ok? ==> BracketsBalanced(r.value)
    ensures r.Ok? ==> IsInfix(r.value, Sanitize(url))
    ensures !StartsWith(AfterScheme(Sanitize(url)), "//") ==> r == Ok("")
    ensures var rest := AfterScheme(Sanitize(url));
            StartsWith(rest, "//") ==>
              && (r.Ok? ==> && |r.value| + 2 <= |rest|
                            && rest[2..|r.value| + 2] == r.value
                            && (|r.value| + 2 == |rest| || IsNetlocDelimiter(rest[|r.value| + 2])))
              && (r.Err? <==> !BracketsBalanced(rest[2..NetlocEnd(rest, 2)]))
  {
    var clean := Sanitize(url);
    var rest := AfterScheme(clean);
    var r := SplitNetloc(rest);
    if r.Ok? && StartsWith(rest, "//") then
      SliceOfSuffix(clean, rest, 2, |r.value| + 2);
      r
    else
      assert OccursAt("", clean, 0);
      r
  }

  /** A slice of a suffix of `s` is a slice of `s`. */
  lemma SliceOfSuffix(s: string, rest: string, i: nat, j: nat)
    requires |rest| <= |s| && rest == s[|s| - |rest|..]
    requires i <= j <= |rest|
    ensures OccursAt(rest[i..j], s, |s| - |rest| + i)
  {
    var k := |s| - |rest|;
    assert forall m :: 0 <= m < j - i ==> rest[i..j][m] == s[k + i + m];
  }

  /** A valid scheme followed by a colon is what urlsplit takes off the front. */
  lemma {:induction false} AfterSchemeOf(scheme: string, tail: string)
    requires ValidScheme(scheme)
    ensures AfterScheme(scheme + ":" + tail) == tail
  {
    var url := scheme + ":" + tail;
    assert url[..|scheme|] == scheme;
    FindFirst(url, ':', 0, |scheme|);
  }

  /** What urlsplit takes off the front of a URL, if anything, is a valid scheme and the first colon. */
  lemma {:induction false} AfterSchemeRemovesOnlyScheme(url: string)
    ensures var rest := AfterScheme(url);
            rest != url ==>
              var colon := |url| - |rest| - 1;
              && 0 < colon && url[colon] == ':' && ValidScheme(url[..colon])
              && forall j :: 0 <= j < colon ==> url[j] != ':'
  {
  }

  /** The netloc ends exactly at the first delimiter after `start`, or at the end of the URL. */
  lemma NetlocEndAt(url: string, start: nat, k: nat)
    requires start <= k <= |url|
    requires forall j :: start <= j < k ==> !IsNetlocDelimiter(url[j])
    requires k < |url| ==> IsNetlocDelimiter(url[k])
    ensures NetlocEnd(url, start) == k
  {
  }

  /** A URL assembled from a scheme and text without tab, CR or LF is left alone by sanitising. */
  lemma {:induction false} CleanUrl(scheme: string, host: string, tail: string)
    requires ValidScheme(scheme)
    requires NoneOf(host, IsUnsafeUrlChar) && NoneOf(tail, IsUnsafeUrlChar)
    ensures Clean(scheme + "://" + host + tail)
  {
    var url := scheme + "://" + host + tail;
    forall i | 0 <= i < |url| ensures !IsUnsafeUrlChar(url[i]) {
      if i < |scheme| {
        assert url[i] == scheme[i];
      } else if i < |scheme| + 3 {
      } else if i < |scheme| + 3 + |host| {
        assert url[i] == host[i - |scheme| - 3];
      } else {
        assert url[i] == tail[i - |scheme| - 3 - |host|];
      }
    }
  }

  /**
   * For a URL `scheme "://" host tail`, where the host holds no '/', '?' or '#' and the tail is empty
   * or starts with one of them, the output name is the host: path, query and fragment never reach it.
   * A host with one square bracket and not the other is refused instead.
   */
  lemma {:induction false} OutputNameOfUrl(scheme: string, host: string, tail: string)
    requires ValidScheme(scheme)
    requires NoneOf(host, IsNetlocDelimiter)
    requires tail == [] || IsNetlocDelimiter(tail[0])
    requires NoneOf(host, IsUnsafeUrlChar) && NoneOf(tail, IsUnsafeUrlChar)
    ensures ConstructOutputName(scheme + "://" + host + tail)
            == if BracketsBalanced(host) then Ok(host) else Err(InvalidIPv6Url)
  {
    var url := scheme + "://" + host + tail;
    var rest := "//" + host + tail;
    assert url == scheme + ":" + rest;
    CleanUrl(scheme, host, tail);
    assert Sanitize(url) == url;
    AfterSchemeOf(scheme, rest);
    SplitNetlocOf(host, tail);
    assert ConstructOutputName(url) == SplitNetloc(AfterScheme(Sanitize(url)));
  }

  /**
   * The same with a tail that may hold tab, CR or LF: urlsplit deletes them before it parses,
   * and after the delimiter that starts the tail they never reach the netloc.
   */
  lemma {:induction false} OutputNameOfUrlAnyTail(scheme: string, host: string, tail: string)
    requires ValidScheme(scheme)
    requires NoneOf(host, IsNetlocDelimiter)
    requires tail == [] || IsNetlocDelimiter(tail[0])
    requires NoneOf(host, IsUnsafeUrlChar)
    ensures ConstructOutputName(scheme + "://" + host + tail)
            == if BracketsBalanced(host) then Ok(host) else Err(InvalidIPv6Url)
  {
    var pre := scheme + "://" + host;
    var url := pre + tail;
    CleanUrl(scheme, host, []);
    assert pre + [] == pre;
    assert LStripC0(url) == url by {
      assert url[0] == scheme[0];
    }
    RemoveUnsafeAppend(pre, tail);
    assert Sanitize(url) == pre + RemoveUnsafe(tail);
    OutputNameOfUrl(scheme, host, RemoveUnsafe(tail));
    assert ConstructOutputName(url) == SplitNetloc(AfterScheme(Sanitize(url)));
    var clean := scheme + "://" + host + RemoveUnsafe(tail);
    assert ConstructOutputName(clean) == SplitNetloc(AfterScheme(Sanitize(clean)));
  }

  /** After "//", the netloc step stops at the delimiter that starts the tail. */
  lemma {:induction false} SplitNetlocOf(host: string, tail: string)
    requires NoneOf(host, IsNetlocDelimiter)
    requires tail == [] || IsNetlocDelimiter(tail[0])
    ensures SplitNetloc("//" + host + tail) == if BracketsBalanced(host) then Ok(host) else Err(InvalidIPv6Url)
  {
    var rest := "//" + host + tail;
    assert StartsWith(rest, "//");
    NetlocEndAt(rest, 2, 2 + |host|);
    assert rest[2..2 + |host|] == host;
  }

  /**
   * A URL with no '/' at all, such as a bare host, has the empty output name: without a "//"
   * urlsplit finds no netloc, which is why links are normalised before they are named.
   */
  lemma {:induction false} NoSlashNoOutputName(url: string)
    requires forall i :: 0 <= i < |url| ==> url[i] != '/'
    ensures ConstructOutputName(url) == Ok("")
  {
    var stripped := LStripC0(url);
    var clean := Sanitize(url);
    assert forall i :: 0 <= i < |stripped| ==> stripped[i] != '/';
    assert forall i :: 0 <= i < |clean| ==> clean[i] != '/';
    var rest := AfterScheme(clean);
    assert forall i :: 0 <= i < |rest| ==> rest[i] != '/';
    assert |rest| < 2 || rest[..2] != "//" by {
      if |rest| >= 2 {
        assert rest[..2][0] == rest[0];
      }
    }
  }
}

=== FILE: results.dfy ===
/** Success/error and present/absent values, used where the Python code raises or has nothing to return. */
module Results {

  /** The value of a call that either returns `value` or raises `error`. */
  datatype Result<+T, +E> = Ok(value: T) | Err(error: E)

  /** A value that may be absent. */
  datatype Option<+T> = None | Some(value: T)
}

=== FILE: strings.dfy ===
/** Small facts about strings (sequences of characters) shared by the URL and clock models. */
module Strings {

  /** Python's `s.startswith(prefix)`. */
  predicate StartsWith(s: string, prefix: string) {
    |prefix| <= |s| && s[..|prefix|] == prefix
  }

  /** `t` occurs in `s` starting at index `i`. */
  predicate OccursAt(t: string, s: string, i: int) {
    0 <= i && i + |t| <= |s| && s[i..i + |t|] == t
  }

  /** `t` occurs in `s` as a contiguous run of characters. */
  predicate IsInfix(t: string, s: string) {
    exists i :: 0 <= i <= |s| && OccursAt(t, s, i)
  }

  /** No character of `s` satisfies `p`. */
  predicate NoneOf(s: string, p: char -> bool) {
    forall i :: 0 <= i < |s| ==> !p(s[i])
  }

  /** Python's `s.find(c, start)`: the first index at or after `start` holding `c`, or -1. */
  function Find(s: string, c: char, start: nat): (i: int)
    ensures i == -1 || start <= i < |s|
    ensures i == -1 ==> forall j :: start <= j < |s| ==> s[j] != c
    ensures i != -1 ==> s[i] == c && forall j :: start <= j < i ==> s[j] != c
    decreases |s| - start
  {
    if start >= |s| then -1
    else if s[start] == c then start
    else Find(s, c, start + 1)
  }

  /** Find returns the position of the first `c` at or after `start`, whatever follows it. */
  lemma FindFirst(s: string, c: char, start: nat, k: nat)
    requires start <= k < |s| && s[k] == c
    requires forall j :: start <= j < k ==> s[j] != c
    ensures Find(s, c, start) == k
  {
  }
}
